=== FILE: README.md ===
# r8 flag core in Dafny

A model of the two pieces of sequential logic at the heart of r8, a
capture-the-flag competition server:

- **Flag handling** (`r8/util.py`): the normaliser `correct_flag`, flag
  creation `create_flag`, the check chain of `submit_flag` (user exists →
  flag found → challenge active unless forced → not already solved by the
  user or their team → under the submission cap unless forced → record),
  `has_solved`, and the helpers `format_address`, `console_escape` and
  `url_for`.
- **Challenges** (`r8/challenge.py`): the cid grammar (`class_name`,
  `Challenge.args`, `Stage(...)` layers), the class registry (`add_class`,
  `make_instance`, the instance-building part of `load`), the activity
  window `active`, `log_and_create_flag`, and the start/stop lifecycle with
  its per-instance fault isolation.

The database is a value (`Store.Db`): a set of users, a uid→tid team map,
challenge rows with a team flag and an inclusive `[t_start, t_stop]` window,
flag rows keyed by token with owner cid and cap, a set of `(uid, fid)`
submissions and an append-only event sequence. Operations are pure
functions returning the result (a value or the exception raised) together
with the new state. Time is an integer `now`; the 16 random bytes behind a
generated flag are a parameter (`Entropy`); the signature `url_for` appends
is a parameter `token`; the behaviour of plugin `start`/`stop` code is given
by the sets of cids whose code raises.

Files: `wrappers.dfy` (Option/Result), `text.dfy` (search, strip, decimal
rendering), `flag_text.dfy` (flag text), `store.dfy` (state and invariants),
`flags.dfy` (create/resolve/submit), `submit_properties.dfy` (what
submission promises), `util_text.dfy`, `cid.dfy`, `registry.dfy`,
`challenge_flags.dfy`, `lifecycle.dfy`.

Readings of the code that are easy to miss:

- `correct_flag` removes only U+0020 spaces (`replace(" ", "")`), not all whitespace.
- A flag whose challenge cid is the empty string is reported as unknown (`if not cid`).
- An unknown user's `flag-err-unknown` event carries neither uid nor cid; the
  unknown-flag event carries the uid.
- After a failed start, the replaced `stop` is skipped but `Stopped.` is still
  printed when the class overrides `stop`, because the check looks at the class.
- `create_flag` for a cid without a challenge row fails: foreign keys are on
  (`sqlite3_connect`), so SQLite refuses the insert.
- The window check of `log_and_create_flag` needs the challenge's row; with
  none, unpacking the missing row raises (`MissingChallengeRow`).

## Model

| member | source | states |
|---|---|---|
| FlagText.CorrectFlag | r8/util.py:420-428 | If the input with spaces removed and lower-cased holds a `[0-9a-f]{32}` run, the result is `__flag__{` + the leftmost such run + `}`; otherwise the original input, neither lower-cased nor stripped |
| FlagText.FirstHexRun | r8/util.py:425 | `re.search` semantics: a returned position starts a 32-hex match and no earlier position does; none is returned only when no position matches |
| FlagText.WithoutSpaces | r8/util.py:424 | No space remains, and text without spaces is unchanged |
| FlagText.WithoutSpacesAppend | r8/util.py:424 | Space removal works piece by piece, so with the single-character case exactly the spaces go and all other characters stay in order |
| FlagText.CorrectFlagFixesCanonical | r8/util.py:424-427 | A canonical `__flag__{<32 lowercase hex>}` is returned unchanged |
| FlagText.CorrectFlagIdempotent | r8/util.py:420-428 | Correcting a correction changes nothing |
| FlagText.CorrectFlagShape | r8/util.py:424-428 | The result is either the input itself or a canonical flag |
| FlagText.TokenHex | r8/util.py:279 | `token_hex` renders two lowercase hex digits per random byte |
| FlagText.HexRoundTrip | r8/util.py:279 | Decoding the hex rendering gives back the bytes |
| FlagText.TokenHexInjective | r8/util.py:279 | Different bytes give different hex text |
| FlagText.GeneratedToken | r8/util.py:278-279 | A generated flag is canonical and is its own `correct_flag` |
| FlagText.GeneratedTokenInjective | r8/util.py:278-279 | Different random payloads give different flags |
| Store.HasSolved | r8/util.py:41-56 | True iff a submission for a flag of the challenge was made by the user, or, on a team challenge, by anyone in the user's team |
| Store.SolveCountPositive | r8/util.py:41-56 | The `COUNT(*)` is positive exactly when a counting submission exists |
| Store.SubmissionCountInsert | r8/util.py:483-495 | Recording a new submission raises its own flag's count by one and no other flag's |
| Flags.CreateFlag | r8/util.py:264-285 | Upsert keyed by token: afterwards `flags[token] = (cid, cap)`, other flags unchanged, nothing else changes; a missing token is `__flag__{` + 32 hex + `}`; an unknown cid is an integrity error with no change |
| Flags.Resolve | r8/util.py:452-456 | Finds a flag joined to a challenge whose token is the raw text or its correction; none only when neither exists; the raw text wins when it exists |
| Flags.SubmitFlag | r8/util.py:431-496 | Only submissions and events change; exactly one event is appended at `now` from `ip`; a failure leaves submissions unchanged; a success adds exactly the pair (user, resolved fid), which was not there before, and returns the owning cid |
| SubmitProperties.SubmitUnknownUser | r8/util.py:444-450 | Rejected as unknown user iff the user does not exist, with one anonymous `flag-err-unknown` event and nothing else changed |
| SubmitProperties.SubmitUnknownFlag | r8/util.py:452-459 | A known user is rejected as unknown flag iff nothing redeemable is found, in particular when neither the raw nor the corrected text is a flag of a challenge; one `flag-err-unknown` event with the uid, no cid, and as data the fid when a row was found under an empty cid, else the raw text; submissions unchanged |
| SubmitProperties.SubmitInactive | r8/util.py:461-468 | Rejected as inactive iff the flag is found, `now` is outside the window and the call is not forced; `flag-err-inactive` logged with fid, cid and uid; submissions unchanged |
| SubmitProperties.SubmitAlreadySolved | r8/util.py:470-481 | Rejected as solved iff the earlier checks pass and the user or (team challenge) a teammate holds a submission for any flag of the cid, whether forced or not; the one event logged is `flag-err-solved` at the call's time and ip with the resolved fid, its cid and the uid |
| SubmitProperties.SubmitExhausted | r8/util.py:483-490 | Rejected as used iff the earlier checks pass, the flag's count is at least its cap and the call is not forced; the one event logged is `flag-err-used` at the call's time and ip with the resolved fid, its cid and the uid |
| SubmitProperties.SubmitSucceeds | r8/util.py:492-496 | Success iff every check passes; then exactly one pair is added, one `flag-submit` event appended, the owning cid returned, all other state unchanged |
| SubmitProperties.ForceBypassesOnlyWindowAndCap | r8/util.py:466-488 | A forced call never fails as inactive or used, and agrees with the unforced call wherever that one succeeds or stops at another check |
| SubmitProperties.SubmitPreservesWellFormed | r8/util.py:492-495 | Submissions keep referencing existing users and flags |
| SubmitProperties.SubmitKeepsCaps | r8/util.py:483-495 | Without force, no flag's submission count is pushed above its cap |
| SubmitProperties.SubmitKeepsOneSolvePerUnit | r8/util.py:470-495 | Forced or not, no user, and on a team challenge no team, ends up with two submissions for one challenge |
| SubmitProperties.SolveCoversUnit | r8/util.py:470-481 | After a success, the submitter and every teammate (team challenge) count as having solved it, and no later submission of theirs for that challenge succeeds |
| SubmitProperties.SubmitAll | r8/util.py:431-496 | Over a run of submissions, one event is appended per attempt and earlier events are kept; submissions only grow; flags, challenges, users and teams never change |
| SubmitProperties.SubmitAllKeepsInvariants | r8/util.py:444-495 | Over any run of submissions, foreign keys and one solve per user (per team on team challenges) hold throughout; caps hold when no attempt is forced |
| UtilText.FormatAddress | r8/util.py:193-198 | The address ends with the port written as `str(port)`: a `-` for a negative port and no leading zero |
| UtilText.FormatAddressRoundTrip | r8/util.py:193-198 | Splitting at the last `:` gives back the host (`0.0.0.0` for an empty one) and exactly `str(port)`, which parses back to the port |
| Text.DecimalRoundTrip | r8/util.py:198 | The decimal rendering of the port parses back to it |
| UtilText.ConsoleEscape | r8/util.py:408-417 | Same length; no control character (0–31, 127) remains; each becomes a Control Pictures character; all other characters are kept |
| UtilText.ConsoleEscapeRoundTrip | r8/util.py:408-417 | On text without control pictures of its own, the escape is undone exactly |
| UtilText.UrlFor | r8/util.py:138-153 | Without a user and not absolute the path is returned as is; an absolute URL is `origin/` followed by the relative URL (path and token) with its leading slashes removed |
| UtilText.UrlForAppendsToken | r8/util.py:144-149 | For a user the result is the path, `&` if the path already has `?` else `?`, then `token=` and the signature |
| Cid.ClassName | r8/challenge.py:137-138 | The kind is the longest `(`-free prefix: the whole cid, or the text before the first `(` |
| Cid.Args | r8/challenge.py:111-120 | Empty without `(`; otherwise the text after the first `(` up to the last `)` in it, or all of it when no `)` follows |
| Cid.KindArgsRoundTrip | r8/challenge.py:111-138 | `Kind(args)` with a `(`-free kind reads back as that kind and exactly those args, even when args hold parentheses |
| Cid.ReassembleCid | r8/challenge.py:117-118 | A cid with `(` and a final `)` is its kind, `(`, its args and `)` |
| Cid.StagePeel | r8/challenge.py:76-78 | A `Stage` layer has kind `Stage` and the layer below as its args |
| Cid.StageWrapLength | r8/challenge.py:76-78 | Each layer adds seven characters |
| Cid.StageNamespacesDistinct | r8/challenge.py:76-78 | Different layer counts give different cids, so each stage is a separate flag namespace |
| Registry.AddClass | r8/challenge.py:160-163 | A name already registered is an assertion failure; otherwise exactly that one name→class mapping is added |
| Registry.MakeInstance | r8/challenge.py:165-171 | Fails with "definition not found" naming the kind iff the kind is unregistered; otherwise an instance of that class whose id is the full cid |
| Registry.RegisteredKindResolves | r8/challenge.py:160-171 | After registering a class, `Kind(args)` makes an instance of it whose args read back |
| Registry.ResolutionByKind | r8/challenge.py:165-169 | Cids of one kind resolve to the same class, or fail alike |
| Registry.LoadInstances | r8/challenge.py:157-158 | One instance per configured cid, in order, iff every kind is registered; otherwise the error names the first unregistered kind |
| ChallengeFlags.IsActive | r8/challenge.py:84-94 | Active iff `t_start <= now <= t_stop`, bounds inclusive; no row is an error |
| ChallengeFlags.LogAndCreateFlag | r8/challenge.py:56-82 | Inactive: returns the sentinel, logs only `flag-inactive`, creates no flag; active: creates the flag for the cid under `stage - 1` Stage layers and logs `flag-create` with the token under the unwrapped cid; fails, changing nothing, iff the challenge has no row or, when active, the staged cid has none, raising the missing-row error in the first case and the integrity error in the second; a generated token is `__flag__{` + the hex of the drawn 16 bytes + `}` |
| ChallengeFlags.ActiveAgreesWithSubmit | r8/util.py:461-468 | The window check of `submit_flag` rejects exactly when `active` is false and the call is not forced |
| ChallengeFlags.StagedFlagOwner | r8/challenge.py:76-80 | Stage 1 or below uses the cid itself; higher stages add layers that `args` peels one by one |
| ChallengeFlags.SentinelNeverGenerated | r8/challenge.py:72-74 | The inactive sentinel is not canonical and equals no generated flag |
| Lifecycle.StartOne | r8/challenge.py:184-195 | The stop is replaced by a no-op iff this instance's start raised; `Starting...` is printed iff the class overrides start, `Error on start.` iff start raised; every line is under its own cid |
| Lifecycle.StartAll | r8/challenge.py:179-182 | Every instance goes through its own start step, whatever the others do |
| Lifecycle.StopOne | r8/challenge.py:202-211 | Stop is skipped iff it was replaced; `Error on stop.` is printed iff the stop raised (absorbed, not propagated); `Stopped.` is printed iff nothing raised and the class overrides stop |
| Lifecycle.StopAll | r8/challenge.py:197-200 | Every instance gets its own stop result; nothing propagates |
| Lifecycle.LifecycleStopIffStarted | r8/challenge.py:179-211 | Over a start/stop cycle, an instance's stop is skipped exactly when its own start raised, and raises are absorbed |
| Lifecycle.LifecycleIsolation | r8/challenge.py:179-211 | An instance's start and stop outcome depends only on its own code, not on any other instance's faults |
| Lifecycle.StartFailureReported | r8/challenge.py:189-193 | Every failed start is reported on the console under the failing cid |
| Lifecycle.StopFailureReported | r8/challenge.py:202-208 | Every raising stop yields a `StopRaised` result and an `Error on stop.` line under its cid in the batch |
| Lifecycle.StartLinesKept | r8/challenge.py:179-195 | Every line one `_start` prints appears in the output of `start` |
| Lifecycle.StartLinesFromSteps | r8/challenge.py:179-195 | Every line in the output of `start` was printed by some instance's `_start` |
| Lifecycle.StopLinesKept | r8/challenge.py:197-211 | Every line one `_stop` prints appears in the output of `stop` |
| Lifecycle.StopLinesFromSteps | r8/challenge.py:197-211 | Every line in the output of `stop` was printed by some instance's `_stop` |

## Left out

- SQLite itself: SQL text, transactions and rollback, the storage-level race on the `(uid, fid)` primary key, and the tooling around it (`with_database`, `backup_db`, `run_sql`). Only the foreign keys enabled by `sqlite3_connect` are kept, as `Store.WellFormed` and the `create_flag` error.
- Concurrency: `asyncio.gather` is run in the instances' order, since each step touches only its own instance; the order of console lines is one possible interleaving. `connection_timeout` and `tolerate_connection_error` are network plumbing.
- Randomness: the 16 bytes of `secrets.token_hex(16)` are a parameter; `spoiler` ids are not modelled.
- Foreign libraries: argon2 (`hash_password`, `verify_hash`), the itsdangerous `Signer` (its output is the `token` parameter of `url_for`), click and texttable output, `echo` colouring (a console line keeps namespace, message and error flag), `pkg_resources` plugin loading, traceback printing.
- HTML/JS templates with no logic: `media`, `spoiler`, `challenge_form_js`, `challenge_invoke_button`; the listing assembly `get_challenges` in r8/util.py and the plain SQL reads `get_challenges`/`get_active_challenges` in r8/challenge.py; `get_host`.
- Plugin capabilities `title`, `description`, `visible`, `handle_request`: their behaviour belongs to each plugin.
- Memoisation: the `lru_cache` on `_active_times` and `get_teams`; the model reads the window afresh each time. `get_team` is folded into the team relation `Store.Teammates`.
- Time: integer seconds; `time.time()`'s fraction and SQL datetime text are not modelled. Submission timestamps are not kept, since nothing in the modelled core reads them.
- `r8.log`'s conversion of a request or transport to an IP: the IP is a string.
- Flag lookup when both the raw text and its correction are flags: SQL does not fix which row `fetchone()` returns; the model takes the raw one.
- `str.lower()` is modelled on ASCII letters only. This does not change which 32-character hex runs exist, because no other character lower-cases to `[0-9a-f]`.
- The no-op stop is built with `asyncio.coroutine`, which newer Python versions removed; the model assumes it exists.
- Team and user administration, and changes to flags or teams made after a submission: the invariants are proved for `submit_flag` steps.

=== FILE: challenge_flags.dfy ===
/** The flag-related members of `Challenge` in r8/challenge.py: the
    activity window read from the challenge's row, and
    `log_and_create_flag`, which mints a flag only while the challenge is
    active and logs either outcome under the challenge's own cid. */
module ChallengeFlags {
  import opened Wrappers
  import opened Store
  import opened FlagText
  import opened Flags
  import opened Cid

  /** What `log_and_create_flag` returns instead of a flag while inactive. */
  const InactiveSentinel: string := "__flag__{challenge inactive}"

  /** `Challenge.active`: whether `now` is within the stored window, bounds
      included. Without a row for the cid the window cannot be unpacked. */
  function IsActive(db: Db, cid: string, now: int): (r: Result<bool, Error>)
    ensures r.Failure? <==> cid !in db.challenges
    ensures r.Failure? ==> r.error == MissingChallengeRow
    ensures r == Success(true) <==>
              cid in db.challenges && db.challenges[cid].tStart <= now && now <= db.challenges[cid].tStop
  {
    if cid !in db.challenges then Failure(MissingChallengeRow)
    else Success(Active(db.challenges[cid], now))
  }

  /** `log_and_create_flag` for the instance whose id is `cid`. */
  function LogAndCreateFlag(db: Db, cid: string, ip: string, now: int, maxSubmissions: int,
                            flag: Option<string>, stage: int, logUid: Option<string>,
                            entropy: Entropy): (r: Outcome<string>)
    ensures r.db.users == db.users && r.db.teams == db.teams
    ensures r.db.challenges == db.challenges && r.db.submissions == db.submissions
    ensures IsActive(db, cid, now) == Success(false) ==>
              && r.result == Success(InactiveSentinel)
              && r.db.flags == db.flags
              && r.db.events == db.events + [Event(now, ip, FlagInactive, None, Some(cid), logUid)]
    ensures IsActive(db, cid, now) == Success(true) && r.result.Success? ==>
              && r.db.flags == db.flags[r.result.value := FlagRow(StageWrap(cid, stage - 1), maxSubmissions)]
              && r.db.events == db.events + [Event(now, ip, FlagCreate, Some(r.result.value), Some(cid), logUid)]
              && (flag.Some? ==> r.result.value == flag.value)
              && (flag.None? ==> r.result.value == Wrap(TokenHex(entropy)) && IsCanonical(r.result.value))
    ensures r.result.Failure? <==>
              || cid !in db.challenges
              || (Active(db.challenges[cid], now) && StageWrap(cid, stage - 1) !in db.challenges)
    ensures r.result.Failure? ==>
              r.result.error == (if cid !in db.challenges then MissingChallengeRow else IntegrityError)
    ensures r.result.Failure? ==> r.db == db
  {
    match IsActive(db, cid, now)
    case Failure(e) => Outcome(Failure(e), db)
    case Success(active) =>
      if !active then
        Outcome(Success(InactiveSentinel), Log(db, Event(now, ip, FlagInactive, None, Some(cid), logUid)))
      else
        var created := CreateFlag(db, StageWrap(cid, stage - 1), maxSubmissions, flag, entropy);
        if created.result.Failure? then created
        else
          Outcome(created.result,
                  Log(created.db, Event(now, ip, FlagCreate, Some(created.result.value), Some(cid), logUid)))
  }

  /** In this model, `Challenge.active` and the window check of
      `submit_flag` agree: a resolved flag is rejected as inactive exactly
      when its challenge's `active` is false and the call is not forced.
      r8 caches the window per instance and compares epoch
      seconds where `submit_flag` compares SQLite datetimes; both are set
      aside here (see the memoisation and time notes in the README). */
  lemma ActiveAgreesWithSubmit(db: Db, raw: string, user: string, ip: string, now: int, force: bool)
    requires user in db.users
    requires Resolve(db, raw).Some? && Resolve(db, raw).value.cid != ""
    ensures SubmitFlag(db, raw, user, ip, now, force).result == Failure(ChallengeInactive)
            <==> !force && IsActive(db, Resolve(db, raw).value.cid, now) == Success(false)
  {
  }

  /** At stage 1 or below the flag belongs to the cid itself; at stage `n`
      it belongs to the cid under `n - 1` Stage layers, which `Args` peels. */
  lemma StagedFlagOwner(cid: string, stage: int)
    ensures stage <= 1 ==> StageWrap(cid, stage - 1) == cid
    ensures stage >= 2 ==> ClassName(StageWrap(cid, stage - 1)) == StageKind
                           && Args(StageWrap(cid, stage - 1)) == StageWrap(cid, stage - 2)
  {
    if stage >= 2 {
      StagePeel(cid, stage - 1);
    }
  }

  /** The sentinel is not in canonical form, so no generated flag equals it. */
  lemma SentinelNeverGenerated(e: Entropy)
    ensures !IsCanonical(InactiveSentinel)
    ensures GeneratedToken(e) != InactiveSentinel
  {
  }
}

=== FILE: cid.dfy ===
/** The challenge identifier grammar of r8/challenge.py: `Kind`,
    `Kind(args)`, and `Stage(...)` layers that give one kind several
    independent flag namespaces. */
module Cid {
  import opened Wrappers
  import opened Text

  /** `class_name`: the text before the first `(`, or all of it. */
  function ClassName(cid: string): (r: string)
    ensures '(' !in r
    ensures |r| <= |cid| && cid[..|r|] == r
    ensures r == cid || cid[|r|] == '('
  {
    match IndexOf(cid, '(')
    case None => cid
    case Some(i) => cid[..i]
  }

  /** `Challenge.args`: after the first `(`, everything up to the last `)`
      (or to the end when no `)` follows); empty when there is no `(`. */
  function Args(cid: string): (r: string)
    ensures '(' !in cid ==> r == ""
    ensures '(' in cid ==>
              var rest := cid[|ClassName(cid)| + 1..];
              || (r == rest && ')' !in rest)
              || (|r| < |rest| && rest[..|r| + 1] == r + ")" && ')' !in rest[|r| + 1..])
  {
    match IndexOf(cid, '(')
    case None => ""
    case Some(i) =>
      var rest := cid[i + 1..];
      match LastIndexOf(rest, ')')
      case None => rest
      case Some(j) =>
        assert rest[..j + 1] == rest[..j] + ")";
        rest[..j]
  }

  /** A kind with arguments is read back as that kind and those arguments. */
  lemma KindArgsRoundTrip(kind: string, args: string)
    requires '(' !in kind
    ensures ClassName(kind + "(" + args + ")") == kind
    ensures Args(kind + "(" + args + ")") == args
  {
    var cid := kind + "(" + args + ")";
    assert cid[..|kind|] == kind;
    assert cid[|kind|] == '(';
    assert cid[|kind| + 1..] == args + ")";
  }

  /** A cid with arguments is its kind, `(`, its arguments and `)`. */
  lemma ReassembleCid(cid: string)
    requires '(' in cid && cid[|cid| - 1] == ')'
    ensures cid == ClassName(cid) + "(" + Args(cid) + ")"
  {
    var i := IndexOf(cid, '(').value;
    var a := cid[i + 1..|cid| - 1];
    assert cid == cid[..i] + "(" + a + ")";
    KindArgsRoundTrip(cid[..i], a);
  }

  const StageKind: string := "Stage"

  /** Helper for the `for _ in range(1, stage)` loop of `log_and_create_flag`:
      the cid wrapped `layers` times in `Stage(...)`, none when `layers <= 0`.
      Its properties are stated by `StagePeel` and `StageWrapLength`. */
  function StageWrap(cid: string, layers: int): string
    decreases layers
  {
    if layers <= 0 then cid else StageKind + "(" + StageWrap(cid, layers - 1) + ")"
  }

  /** Each layer is read back as kind `Stage` whose arguments are the layer below. */
  lemma StagePeel(cid: string, layers: int)
    requires layers >= 1
    ensures ClassName(StageWrap(cid, layers)) == StageKind
    ensures Args(StageWrap(cid, layers)) == StageWrap(cid, layers - 1)
  {
    KindArgsRoundTrip(StageKind, StageWrap(cid, layers - 1));
  }

  /** Each layer adds the seven characters of `Stage(` and `)`. */
  lemma {:induction false} StageWrapLength(cid: string, layers: int)
    ensures |StageWrap(cid, layers)| == |cid| + 7 * (if layers <= 0 then 0 else layers)
    decreases layers
  {
    if layers > 0 {
      StageWrapLength(cid, layers - 1);
    }
  }

  /** Different numbers of layers give different cids, so each stage is its own namespace. */
  lemma StageNamespacesDistinct(cid: string, m: nat, n: nat)
    requires m != n
    ensures StageWrap(cid, m) != StageWrap(cid, n)
  {
    StageWrapLength(cid, m);
    StageWrapLength(cid, n);
  }
}

=== FILE: flag_text.dfy ===
/** The textual side of flags: the canonical `__flag__{...}` form, the
    normaliser `correct_flag` (r8/util.py) that repairs hand-typed
    submissions, and the lowercase hex rendering of random bytes that
    `secrets.token_hex` produces for generated flags. */
module FlagText {
  import opened Wrappers

  const FlagPrefix: string := "__flag__{"
  const FlagSuffix: string := "}"

  /** Length of the hex run `correct_flag` searches for (the `{32}` of its pattern). */
  const HexRunLength: nat := 32

  /** Number of random bytes behind a generated flag (`token_hex(16)`). */
  const TokenBytes: nat := 16

  /** A member of the character class `[0-9a-f]`. */
  predicate IsHexDigit(c: char) {
    '0' <= c <= '9' || 'a' <= c <= 'f'
  }

  predicate AllHex(s: string) {
    forall k :: 0 <= k < |s| ==> IsHexDigit(s[k])
  }

  /** Wraps a payload in the literal flag form. */
  function Wrap(payload: string): string {
    FlagPrefix + payload + FlagSuffix
  }

  /** A flag in canonical form: exactly 32 lowercase hex characters wrapped. */
  predicate IsCanonical(token: string) {
    |token| == |FlagPrefix| + HexRunLength + |FlagSuffix|
    && token[..|FlagPrefix|] == FlagPrefix
    && token[|token| - 1..] == FlagSuffix
    && AllHex(token[|FlagPrefix|..|token| - 1])
  }

  /** `s.replace(" ", "")`: only U+0020 is removed, other whitespace stays. */
  function WithoutSpaces(s: string): (r: string)
    ensures ' ' !in r
    ensures |r| <= |s|
    ensures ' ' !in s ==> r == s
  {
    if |s| == 0 then []
    else (if s[0] == ' ' then [] else [s[0]]) + WithoutSpaces(s[1..])
  }

  /** Removing spaces works piecewise, so exactly the spaces go and every
      other character stays, in order. */
  lemma {:induction false} WithoutSpacesAppend(a: string, b: string)
    ensures WithoutSpaces(a + b) == WithoutSpaces(a) + WithoutSpaces(b)
    decreases |a|
  {
    if |a| > 0 {
      assert (a + b)[1..] == a[1..] + b;
      WithoutSpacesAppend(a[1..], b);
    } else {
      assert a + b == b;
    }
  }

  /** A single space is removed; any other single character is kept. */
  lemma WithoutSpacesChar(c: char)
    ensures WithoutSpaces([c]) == (if c == ' ' then [] else [c])
  {
  }

  function LowerChar(c: char): char {
    if 'A' <= c <= 'Z' then (c as int - 'A' as int + 'a' as int) as char else c
  }

  /** `str.lower()` on ASCII letters; no other character lower-cases to a
      member of `[0-9a-f]`, so the hex search below sees the same runs. */
  function Lower(s: string): (r: string)
    ensures |r| == |s|
    ensures forall k :: 0 <= k < |s| ==> r[k] == LowerChar(s[k])
  {
    seq(|s|, k requires 0 <= k < |s| => LowerChar(s[k]))
  }

  /** The text `correct_flag` searches: spaces removed, then lower-cased. */
  function Filtered(s: string): string {
    Lower(WithoutSpaces(s))
  }

  /** A match of `[0-9a-f]{32}` starts at position `i` of `s`. */
  predicate HexRunAt(s: string, i: int) {
    0 <= i && i + HexRunLength <= |s| && AllHex(s[i..i + HexRunLength])
  }

  /** Leftmost match position at or after `from`, as `re.search` finds it. */
  function FirstHexRun(s: string, from: nat): (r: Option<nat>)
    ensures r.Some? ==> from <= r.value && HexRunAt(s, r.value)
    ensures r.Some? ==> forall j :: from <= j < r.value ==> !HexRunAt(s, j)
    ensures r.None? ==> forall j :: from <= j ==> !HexRunAt(s, j)
    decreases |s| - from
  {
    if from + HexRunLength > |s| then None
    else if HexRunAt(s, from) then Some(from)
    else FirstHexRun(s, from + 1)
  }

  /** `i` is where the leftmost match of `[0-9a-f]{32}` in `s` begins. */
  predicate IsFirstHexRun(s: string, i: int) {
    HexRunAt(s, i) && forall j :: 0 <= j < i ==> !HexRunAt(s, j)
  }

  /** There is at most one leftmost match. */
  lemma FirstHexRunUnique(s: string, i: int, k: int)
    requires IsFirstHexRun(s, i) && IsFirstHexRun(s, k)
    ensures i == k
  {
  }

  /** `correct_flag`: if the filtered input holds a 32-character hex run, the
      first such run wrapped as a flag; otherwise the input itself, untouched
      (neither lower-cased nor stripped of spaces). */
  function CorrectFlag(flag: string): (r: string)
    ensures (forall i :: !HexRunAt(Filtered(flag), i)) ==> r == flag
    ensures forall i | IsFirstHexRun(Filtered(flag), i) :: r == Wrap(Filtered(flag)[i..i + HexRunLength])
  {
    var filtered := Filtered(flag);
    match FirstHexRun(filtered, 0)
    case Some(k) =>
      assert IsFirstHexRun(filtered, k);
      assert forall i | IsFirstHexRun(filtered, i) :: i == k by {
        forall i | IsFirstHexRun(filtered, i) ensures i == k {
          FirstHexRunUnique(filtered, i, k);
        }
      }
      Wrap(filtered[k..k + HexRunLength])
    case None => flag
  }

  /** Every character of a wrapped payload, read by position. */
  lemma WrapIndex(h: string)
    ensures |Wrap(h)| == |h| + |FlagPrefix| + |FlagSuffix|
    ensures Wrap(h)[..|FlagPrefix|] == FlagPrefix
    ensures Wrap(h)[|FlagPrefix|..|FlagPrefix| + |h|] == h
    ensures Wrap(h)[|FlagPrefix| + |h|] == '}'
    ensures Wrap(h)[|FlagPrefix| - 1] == '{'
  {
  }

  /** The canonical predicate holds exactly of a wrapped 32-digit hex payload. */
  lemma CanonicalIsWrappedHex(h: string)
    requires |h| == HexRunLength && AllHex(h)
    ensures IsCanonical(Wrap(h))
  {
    WrapIndex(h);
    assert Wrap(h)[|FlagPrefix|..|Wrap(h)| - 1] == h;
  }

  /** A canonical flag is its own correction. */
  lemma {:induction false} CorrectFlagFixesCanonical(h: string)
    requires |h| == HexRunLength && AllHex(h)
    ensures CorrectFlag(Wrap(h)) == Wrap(h)
  {
    var t := Wrap(h);
    WrapIndex(h);
    assert ' ' !in t by {
      forall k | 0 <= k < |t| ensures t[k] != ' ' {
        if k < |FlagPrefix| {
          assert t[k] == FlagPrefix[k];
        } else if k < |FlagPrefix| + HexRunLength {
          assert t[k] == h[k - |FlagPrefix|];
        }
      }
    }
    assert Filtered(t) == t by {
      assert WithoutSpaces(t) == t;
      forall k | 0 <= k < |t| ensures LowerChar(t[k]) == t[k] {
        if k < |FlagPrefix| {
          assert t[k] == FlagPrefix[k];
        } else if k < |FlagPrefix| + HexRunLength {
          assert t[k] == h[k - |FlagPrefix|];
        }
      }
    }
    // every window starting before the payload covers the '{' that ends the prefix
    forall j | 0 <= j < |FlagPrefix| ensures !HexRunAt(t, j) {
      assert t[j..j + HexRunLength][|FlagPrefix| - 1 - j] == t[|FlagPrefix| - 1];
    }
    assert HexRunAt(t, |FlagPrefix|) by {
      assert t[|FlagPrefix|..|FlagPrefix| + HexRunLength] == h;
    }
    assert t[|FlagPrefix|..|FlagPrefix| + HexRunLength] == h;
  }

  /** The result is either the input itself or a canonical flag. */
  lemma CorrectFlagShape(flag: string)
    ensures CorrectFlag(flag) == flag || IsCanonical(CorrectFlag(flag))
  {
    var filtered := Filtered(flag);
    match FirstHexRun(filtered, 0)
    case Some(i) =>
      CanonicalIsWrappedHex(filtered[i..i + HexRunLength]);
    case None =>
  }

  /** Correcting twice is correcting once. */
  lemma {:induction false} CorrectFlagIdempotent(flag: string)
    ensures CorrectFlag(CorrectFlag(flag)) == CorrectFlag(flag)
  {
    var filtered := Filtered(flag);
    match FirstHexRun(filtered, 0)
    case Some(i) =>
      CorrectFlagFixesCanonical(filtered[i..i + HexRunLength]);
    case None =>
  }

  /** One byte as two lowercase hex digits, high nibble first. */
  function NibbleChar(n: nat): (c: char)
    requires n < 16
    ensures IsHexDigit(c)
  {
    "0123456789abcdef"[n]
  }

  function NibbleValue(c: char): nat
    requires IsHexDigit(c)
  {
    if c <= '9' then c as int - '0' as int else c as int - 'a' as int + 10
  }

  lemma NibbleRoundTrip(n: nat)
    requires n < 16
    ensures NibbleValue(NibbleChar(n)) == n
  {
  }

  newtype byte = x: int | 0 <= x < 256

  /** `bytes.hex()`: two lowercase hex digits per byte. */
  function TokenHex(b: seq<byte>): (r: string)
    ensures |r| == 2 * |b|
    ensures AllHex(r)
  {
    if |b| == 0 then []
    else [NibbleChar(b[0] as int / 16), NibbleChar(b[0] as int % 16)] + TokenHex(b[1..])
  }

  /** Reads lowercase hex digits back into bytes. */
  function HexDecode(s: string): seq<byte>
    requires |s| % 2 == 0 && AllHex(s)
  {
    if |s| == 0 then []
    else
      assert IsHexDigit(s[0]) && IsHexDigit(s[1]);
      var hi, lo := NibbleValue(s[0]), NibbleValue(s[1]);
      assert hi < 16 && lo < 16;
      [(hi * 16 + lo) as byte] + HexDecode(s[2..])
  }

  /** Decoding the rendering gives back the bytes. */
  lemma {:induction false} HexRoundTrip(b: seq<byte>)
    ensures HexDecode(TokenHex(b)) == b
  {
    if |b| > 0 {
      var s := TokenHex(b);
      NibbleRoundTrip(b[0] as int / 16);
      NibbleRoundTrip(b[0] as int % 16);
      assert s[2..] == TokenHex(b[1..]);
      HexRoundTrip(b[1..]);
    }
  }

  /** Distinct random bytes give distinct tokens. */
  lemma TokenHexInjective(a: seq<byte>, b: seq<byte>)
    requires TokenHex(a) == TokenHex(b)
    ensures a == b
  {
    HexRoundTrip(a);
    HexRoundTrip(b);
  }

  /** Exactly the 16 bytes `token_hex(16)` draws. */
  type Entropy = b: seq<byte> | |b| == TokenBytes witness seq(16, _ => 0 as byte)

  /** The token `create_flag` generates when none is given. */
  function GeneratedToken(e: Entropy): (r: string)
    ensures IsCanonical(r)
    ensures CorrectFlag(r) == r
  {
    var h := TokenHex(e);
    CanonicalIsWrappedHex(h);
    CorrectFlagFixesCanonical(h);
    Wrap(h)
  }

  /** Generated tokens for different entropy never collide. */
  lemma GeneratedTokenInjective(a: Entropy, b: Entropy)
    requires GeneratedToken(a) == GeneratedToken(b)
    ensures a == b
  {
    WrapIndex(TokenHex(a));
    WrapIndex(TokenHex(b));
    assert TokenHex(a) == GeneratedToken(a)[|FlagPrefix|..|FlagPrefix| + HexRunLength];
    TokenHexInjective(a, b);
  }
}

=== FILE: flags.dfy ===
/** Flag issuance and redemption (r8/util.py): `create_flag`, the lookup of a
    submitted text, and `submit_flag`, the chain of checks that runs inside a
    single transaction. Every rejection appends its own event; the event
    survives the rollback because `r8.log` commits on its own. */
module Flags {
  import opened Wrappers
  import opened Store
  import opened FlagText

  /** `create_flag`: insert, or replace, the flag row keyed by the token. A
      missing token is generated from 16 random bytes. The row's challenge
      must exist (foreign key), otherwise SQLite refuses the statement and the
      transaction rolls back. */
  function CreateFlag(db: Db, challenge: string, maxSubmissions: int, flag: Option<string>,
                      entropy: Entropy): (r: Outcome<string>)
    ensures r.result.Failure? <==> challenge !in db.challenges
    ensures r.result.Failure? ==> r.result.error == IntegrityError && r.db == db
    ensures r.result.Success? && flag.Some? ==> r.result.value == flag.value
    ensures r.result.Success? && flag.None? ==>
              r.result.value == Wrap(TokenHex(entropy)) && IsCanonical(r.result.value)
    ensures r.result.Success? ==>
              && r.db.flags.Keys == db.flags.Keys + {r.result.value}
              && r.db.flags[r.result.value] == FlagRow(challenge, maxSubmissions)
              && (forall f | f in db.flags && f != r.result.value :: r.db.flags[f] == db.flags[f])
    ensures r.db == db.(flags := r.db.flags)
  {
    var token := if flag.None? then GeneratedToken(entropy) else flag.value;
    if challenge !in db.challenges then
      Outcome(Failure(IntegrityError), db)
    else
      Outcome(Success(token), db.(flags := db.flags[token := FlagRow(challenge, maxSubmissions)]))
  }

  /** A flag row exists for `fid` and joins to an existing challenge
      (`flags NATURAL INNER JOIN challenges`). */
  predicate Redeemable(db: Db, fid: string) {
    fid in db.flags && db.flags[fid].cid in db.challenges
  }

  datatype Resolved = Resolved(fid: string, cid: string)

  /** The row `submit_flag` reads for `fid = raw OR fid = correct_flag(raw)`.
      SQL leaves the row order open when both match; the raw text, the
      primary candidate, is taken first. */
  function Resolve(db: Db, raw: string): (r: Option<Resolved>)
    ensures r.None? <==> !Redeemable(db, raw) && !Redeemable(db, CorrectFlag(raw))
    ensures r.Some? ==>
              && (r.value.fid == raw || r.value.fid == CorrectFlag(raw))
              && Redeemable(db, r.value.fid)
              && r.value.cid == db.flags[r.value.fid].cid
    ensures Redeemable(db, raw) ==> r == Some(Resolved(raw, db.flags[raw].cid))
  {
    var corrected := CorrectFlag(raw);
    if Redeemable(db, raw) then Some(Resolved(raw, db.flags[raw].cid))
    else if Redeemable(db, corrected) then Some(Resolved(corrected, db.flags[corrected].cid))
    else None
  }

  function Reject(db: Db, e: Error, ev: Event): Outcome<string> {
    Outcome(Failure(e), Log(db, ev))
  }

  /** `submit_flag`: user exists, flag found, challenge active (unless
      forced), not already solved by the user or their team, cap not reached
      (unless forced), then record the submission. The result is the cid. */
  function SubmitFlag(db: Db, raw: string, user: string, ip: string, now: int, force: bool): (r: Outcome<string>)
    ensures r.db.users == db.users && r.db.teams == db.teams
    ensures r.db.challenges == db.challenges && r.db.flags == db.flags
    ensures |r.db.events| == |db.events| + 1 && r.db.events[..|db.events|] == db.events
    ensures r.db.events[|db.events|].time == now && r.db.events[|db.events|].ip == ip
    ensures r.result.Failure? ==> r.db.submissions == db.submissions
    ensures r.result.Success? ==>
              && Resolve(db, raw).Some?
              && r.result.value == Resolve(db, raw).value.cid
              && var n := Submission(user, Resolve(db, raw).value.fid);
                 n !in db.submissions && r.db.submissions == db.submissions + {n}
  {
    if user !in db.users then
      Reject(db, UnknownUser, Event(now, ip, FlagErrUnknown, Some(raw), None, None))
    else
      match Resolve(db, raw)
      case None =>
        Reject(db, UnknownFlag, Event(now, ip, FlagErrUnknown, Some(raw), None, Some(user)))
      case Some(found) =>
        var fid, cid := found.fid, found.cid;
        if cid == "" then
          Reject(db, UnknownFlag, Event(now, ip, FlagErrUnknown, Some(fid), None, Some(user)))
        else if !Active(db.challenges[cid], now) && !force then
          Reject(db, ChallengeInactive, Event(now, ip, FlagErrInactive, Some(fid), Some(cid), Some(user)))
        else if HasSolved(db, user, cid) then
          Reject(db, AlreadySolved, Event(now, ip, FlagErrSolved, Some(fid), Some(cid), Some(user)))
        else if SubmissionCount(db.submissions, fid) >= db.flags[fid].maxSubmissions && !force then
          Reject(db, FlagExhausted, Event(now, ip, FlagErrUsed, Some(fid), Some(cid), Some(user)))
        else
          assert CountsToward(db, user, cid, Submission(user, fid));
          var logged := Log(db, Event(now, ip, FlagSubmit, Some(fid), Some(cid), Some(user)));
          Outcome(Success(cid), logged.(submissions := db.submissions + {Submission(user, fid)}))
  }
}

=== FILE: lifecycle.dfy ===
/** Starting and stopping every challenge instance (`_Challenges.start`,
    `_start`, `stop`, `_stop` in r8/challenge.py). r8 runs the
    per-instance steps concurrently; each step touches only its own instance,
    so the model runs them one after another in the instances' order.
    What a plugin's `start` or `stop` does is outside the model: the sets
    `startFailing` and `stopFailing` say whose code raises. */
module Lifecycle {
  import opened Registry

  /** A console line written by `r8.echo`, under the instance's cid. */
  datatype Line = Line(namespace: string, message: string, isError: bool)

  /** What happened when `stop` was due. */
  datatype StopResult =
    | StopReturned   // the instance's stop ran and returned
    | StopRaised     // the instance's stop ran and raised; the error was absorbed
    | StopSkipped    // start had failed, so stop was the no-op replacement

  /** The default `start`/`stop` of `Challenge` do nothing and cannot raise. */
  predicate StartRaises(inst: Instance, startFailing: set<string>) {
    inst.cls.overridesStart && inst.id in startFailing
  }

  predicate StopRaises(inst: Instance, stopFailing: set<string>) {
    inst.cls.overridesStop && inst.id in stopFailing
  }

  datatype Started = Started(instance: Instance, console: seq<Line>)

  /** `_start`: announce an overridden start, run it, and on failure report
      it and replace the instance's stop by a no-op. */
  function StartOne(inst: Instance, startFailing: set<string>): (r: Started)
    ensures r.instance.cls == inst.cls && r.instance.id == inst.id
    ensures r.instance.stopReplaced <==> inst.stopReplaced || StartRaises(inst, startFailing)
    ensures forall k | 0 <= k < |r.console| :: r.console[k].namespace == inst.id
    ensures Line(inst.id, "Starting...", false) in r.console <==> inst.cls.overridesStart
    ensures Line(inst.id, "Error on start.", true) in r.console <==> StartRaises(inst, startFailing)
  {
    var announce := if inst.cls.overridesStart then [Line(inst.id, "Starting...", false)] else [];
    if StartRaises(inst, startFailing) then
      Started(inst.(stopReplaced := true), announce + [Line(inst.id, "Error on start.", true)])
    else
      Started(inst, announce)
  }

  datatype StartReport = StartReport(instances: seq<Instance>, console: seq<Line>)

  /** `start`: `_start` for every instance; one instance's failure leaves the others' steps as they were. */
  function StartAll(insts: seq<Instance>, startFailing: set<string>): (r: StartReport)
    ensures |r.instances| == |insts|
    ensures forall i | 0 <= i < |insts| :: r.instances[i] == StartOne(insts[i], startFailing).instance
    ensures forall k | 0 <= k < |r.console| :: exists i :: 0 <= i < |insts| && r.console[k].namespace == insts[i].id
  {
    if |insts| == 0 then StartReport([], [])
    else
      var first := StartOne(insts[0], startFailing);
      var rest := StartAll(insts[1..], startFailing);
      var r := StartReport([first.instance] + rest.instances, first.console + rest.console);
      assert forall k | 0 <= k < |first.console| :: r.console[k] == first.console[k];
      assert forall k | |first.console| <= k < |r.console| ::
               r.console[k] == rest.console[k - |first.console|];
      r
  }

  datatype Stopped = Stopped(result: StopResult, console: seq<Line>)

  /** `_stop`: run the (possibly replaced) stop, absorb and report a failure,
      and print `Stopped.` when the class overrides stop and nothing was
      raised. The check is on the class, so it also fires after a failed start. */
  function StopOne(inst: Instance, stopFailing: set<string>): (r: Stopped)
    ensures r.result == StopSkipped <==> inst.stopReplaced
    ensures r.result == StopRaised <==> !inst.stopReplaced && StopRaises(inst, stopFailing)
    ensures forall k | 0 <= k < |r.console| :: r.console[k].namespace == inst.id
    ensures Line(inst.id, "Error on stop.", true) in r.console <==> r.result == StopRaised
    ensures Line(inst.id, "Stopped.", false) in r.console <==> r.result != StopRaised && inst.cls.overridesStop
  {
    var done := if inst.cls.overridesStop then [Line(inst.id, "Stopped.", false)] else [];
    if inst.stopReplaced then Stopped(StopSkipped, done)
    else if StopRaises(inst, stopFailing) then Stopped(StopRaised, [Line(inst.id, "Error on stop.", true)])
    else Stopped(StopReturned, done)
  }

  datatype StopReport = StopReport(results: seq<StopResult>, console: seq<Line>)

  /** `stop`: `_stop` for every instance; nothing propagates out. */
  function StopAll(insts: seq<Instance>, stopFailing: set<string>): (r: StopReport)
    ensures |r.results| == |insts|
    ensures forall i | 0 <= i < |insts| :: r.results[i] == StopOne(insts[i], stopFailing).result
  {
    if |insts| == 0 then StopReport([], [])
    else
      var first := StopOne(insts[0], stopFailing);
      var rest := StopAll(insts[1..], stopFailing);
      StopReport([first.result] + rest.results, first.console + rest.console)
  }

  /** Freshly made instances, none of whose stop has been replaced yet. */
  predicate Fresh(insts: seq<Instance>) {
    forall i | 0 <= i < |insts| :: !insts[i].stopReplaced
  }

  /** Over a full start/stop cycle, an instance's stop is skipped exactly
      when its own start raised, and a raising stop is reported, never
      propagated; nothing depends on any other instance. */
  lemma LifecycleStopIffStarted(insts: seq<Instance>, startFailing: set<string>, stopFailing: set<string>)
    requires Fresh(insts)
    ensures var stopped := StopAll(StartAll(insts, startFailing).instances, stopFailing);
            && |stopped.results| == |insts|
            && forall i | 0 <= i < |insts| ::
                 && (stopped.results[i] == StopSkipped <==> StartRaises(insts[i], startFailing))
                 && (stopped.results[i] == StopRaised <==>
                       !StartRaises(insts[i], startFailing) && StopRaises(insts[i], stopFailing))
  {
  }

  /** Fault isolation: what happens to an instance is decided by its own
      start and stop alone, whatever the other instances do. */
  lemma LifecycleIsolation(insts: seq<Instance>, i: nat,
                           startA: set<string>, stopA: set<string>,
                           startB: set<string>, stopB: set<string>)
    requires i < |insts|
    requires (insts[i].id in startA) == (insts[i].id in startB)
    requires (insts[i].id in stopA) == (insts[i].id in stopB)
    ensures StartAll(insts, startA).instances[i] == StartAll(insts, startB).instances[i]
    ensures StopAll(StartAll(insts, startA).instances, stopA).results[i]
            == StopAll(StartAll(insts, startB).instances, stopB).results[i]
  {
  }

  /** Every start failure is reported on the console under the failing
      instance's cid. */
  lemma {:induction false} StartFailureReported(insts: seq<Instance>, startFailing: set<string>, i: nat)
    requires i < |insts| && StartRaises(insts[i], startFailing)
    ensures Line(insts[i].id, "Error on start.", true) in StartAll(insts, startFailing).console
    decreases |insts|
  {
    if i > 0 {
      StartFailureReported(insts[1..], startFailing, i - 1);
    } else {
      assert StartAll(insts, startFailing).console[|StartOne(insts[0], startFailing).console| - 1]
             == Line(insts[i].id, "Error on start.", true);
    }
  }

  /** Every stop that raised is reported on the console under its cid, and
      nothing propagates: the batch still has a result for every instance. */
  lemma {:induction false} StopFailureReported(insts: seq<Instance>, stopFailing: set<string>, i: nat)
    requires i < |insts| && !insts[i].stopReplaced && StopRaises(insts[i], stopFailing)
    ensures StopAll(insts, stopFailing).results[i] == StopRaised
    ensures Line(insts[i].id, "Error on stop.", true) in StopAll(insts, stopFailing).console
    decreases |insts|
  {
    if i > 0 {
      StopFailureReported(insts[1..], stopFailing, i - 1);
      var first := StopOne(insts[0], stopFailing);
      var rest := StopAll(insts[1..], stopFailing);
      var k :| 0 <= k < |rest.console| && rest.console[k] == Line(insts[i].id, "Error on stop.", true);
      assert StopAll(insts, stopFailing).console[|first.console| + k] == rest.console[k];
    } else {
      assert StopAll(insts, stopFailing).console[0] == Line(insts[i].id, "Error on stop.", true);
    }
  }

  /** Every line a single `_start` prints appears in the batch output. */
  lemma {:induction false} StartLinesKept(insts: seq<Instance>, startFailing: set<string>, i: nat, l: Line)
    requires i < |insts| && l in StartOne(insts[i], startFailing).console
    ensures l in StartAll(insts, startFailing).console
    decreases |insts|
  {
    var first := StartOne(insts[0], startFailing);
    var rest := StartAll(insts[1..], startFailing);
    assert StartAll(insts, startFailing).console == first.console + rest.console;
    if i > 0 {
      StartLinesKept(insts[1..], startFailing, i - 1, l);
    }
  }

  /** The batch output of `start` holds nothing but what the single `_start`
      steps print: no line is invented for an instance. */
  lemma {:induction false} StartLinesFromSteps(insts: seq<Instance>, startFailing: set<string>, l: Line)
    requires l in StartAll(insts, startFailing).console
    ensures exists i :: 0 <= i < |insts| && l in StartOne(insts[i], startFailing).console
    decreases |insts|
  {
    var first := StartOne(insts[0], startFailing);
    var rest := StartAll(insts[1..], startFailing);
    assert StartAll(insts, startFailing).console == first.console + rest.console;
    if l !in first.console {
      StartLinesFromSteps(insts[1..], startFailing, l);
      var j :| 0 <= j < |insts| - 1 && l in StartOne(insts[1..][j], startFailing).console;
      assert insts[1..][j] == insts[j + 1];
    }
  }

  /** Every line a single `_stop` prints appears in the batch output. */
  lemma {:induction false} StopLinesKept(insts: seq<Instance>, stopFailing: set<string>, i: nat, l: Line)
    requires i < |insts| && l in StopOne(insts[i], stopFailing).console
    ensures l in StopAll(insts, stopFailing).console
    decreases |insts|
  {
    var first := StopOne(insts[0], stopFailing);
    var rest := StopAll(insts[1..], stopFailing);
    assert StopAll(insts, stopFailing).console == first.console + rest.console;
    if i > 0 {
      StopLinesKept(insts[1..], stopFailing, i - 1, l);
    }
  }

  /** The batch output of `stop` holds nothing but what the single `_stop`
      steps print. */
  lemma {:induction false} StopLinesFromSteps(insts: seq<Instance>, stopFailing: set<string>, l: Line)
    requires l in StopAll(insts, stopFailing).console
    ensures exists i :: 0 <= i < |insts| && l in StopOne(insts[i], stopFailing).console
    decreases |insts|
  {
    var first := StopOne(insts[0], stopFailing);
    var rest := StopAll(insts[1..], stopFailing);
    assert StopAll(insts, stopFailing).console == first.console + rest.console;
    if l !in first.console {
      StopLinesFromSteps(insts[1..], stopFailing, l);
      var j :| 0 <= j < |insts| - 1 && l in StopOne(insts[1..][j], stopFailing).console;
      assert insts[1..][j] == insts[j + 1];
    }
  }
}

=== FILE: registry.dfy ===
/** The class registry of r8/challenge.py (`_Challenges`): challenge classes
    register themselves by name, and every configured cid is resolved to an
    instance of the class its kind names. */
module Registry {
  import opened Wrappers
  import opened Cid

  /** A challenge class as the registry sees it: its `__name__`, and whether
      it overrides the default no-op `start` and `stop`. */
  datatype ChallengeClass = ChallengeClass(name: string, overridesStart: bool, overridesStop: bool)

  /** A challenge instance: its class, its full cid, and whether its `stop`
      has been replaced by a no-op (after a failed start). */
  datatype Instance = Instance(cls: ChallengeClass, id: string, stopReplaced: bool)

  datatype RegistryError =
    | DuplicateClass(name: string)       // the `assert` in `add_class` fails
    | DefinitionNotFound(kind: string)   // RuntimeError("Challenge definition not found: ...")

  type Classes = map<string, ChallengeClass>

  /** `add_class`: register a class under its name; a second class with the
      same name is a failed assertion. */
  function AddClass(classes: Classes, cls: ChallengeClass): (r: Result<Classes, RegistryError>)
    ensures r.Failure? <==> cls.name in classes
    ensures r.Failure? ==> r.error == DuplicateClass(cls.name)
    ensures r.Success? ==>
              && r.value.Keys == classes.Keys + {cls.name}
              && r.value[cls.name] == cls
              && forall n | n in classes :: r.value[n] == classes[n]
  {
    if cls.name in classes then Failure(DuplicateClass(cls.name))
    else Success(classes[cls.name := cls])
  }

  /** `make_instance`: the class named by the cid's kind, constructed with the full cid. */
  function MakeInstance(classes: Classes, cid: string): (r: Result<Instance, RegistryError>)
    ensures r.Failure? <==> ClassName(cid) !in classes
    ensures r.Failure? ==> r.error == DefinitionNotFound(ClassName(cid))
    ensures r.Success? ==> r.value.id == cid && r.value.cls.name == classes[ClassName(cid)].name
    ensures r.Success? ==> r.value == Instance(classes[ClassName(cid)], cid, false)
  {
    var kind := ClassName(cid);
    if kind !in classes then Failure(DefinitionNotFound(kind))
    else Success(Instance(classes[kind], cid, false))
  }

  /** A class just registered resolves every cid of its kind, and the
      instance can read its arguments back from its id. */
  lemma RegisteredKindResolves(classes: Classes, cls: ChallengeClass, args: string)
    requires '(' !in cls.name
    requires AddClass(classes, cls).Success?
    ensures var cid := cls.name + "(" + args + ")";
            && MakeInstance(AddClass(classes, cls).value, cid) == Success(Instance(cls, cid, false))
            && Args(MakeInstance(AddClass(classes, cls).value, cid).value.id) == args
  {
    KindArgsRoundTrip(cls.name, args);
  }

  /** Resolution looks only at the kind: cids of one kind resolve alike. */
  lemma ResolutionByKind(classes: Classes, c1: string, c2: string)
    requires ClassName(c1) == ClassName(c2)
    ensures MakeInstance(classes, c1).Success? == MakeInstance(classes, c2).Success?
    ensures MakeInstance(classes, c1).Success? ==>
              MakeInstance(classes, c1).value.cls == MakeInstance(classes, c2).value.cls
  {
  }

  /** The instance-building half of `load`: one instance per configured cid
      (cids are a primary key, so they are distinct), stopping at the first
      whose kind is not registered. */
  method LoadInstances(classes: Classes, cids: seq<string>) returns (r: Result<seq<Instance>, RegistryError>)
    requires forall i, j | 0 <= i < j < |cids| :: cids[i] != cids[j]
    ensures r.Success? <==> forall i | 0 <= i < |cids| :: ClassName(cids[i]) in classes
    ensures r.Success? ==>
              && |r.value| == |cids|
              && forall i | 0 <= i < |cids| :: r.value[i] == Instance(classes[ClassName(cids[i])], cids[i], false)
    ensures r.Failure? ==>
              exists k | 0 <= k < |cids| ::
                && ClassName(cids[k]) !in classes
                && r.error == DefinitionNotFound(ClassName(cids[k]))
                && forall i | 0 <= i < k :: ClassName(cids[i]) in classes
  {
    var instances: seq<Instance> := [];
    var k := 0;
    while k < |cids|
      invariant 0 <= k <= |cids|
      invariant |instances| == k
      invariant forall i | 0 <= i < k :: ClassName(cids[i]) in classes
      invariant forall i | 0 <= i < k :: instances[i] == Instance(classes[ClassName(cids[i])], cids[i], false)
    {
      var made := MakeInstance(classes, cids[k]);
      if made.Failure? {
        return Failure(made.error);
      }
      instances := instances + [made.value];
      k := k + 1;
    }
    return Success(instances);
  }
}

=== FILE: store.dfy ===
/** The persistent state the flag operations read and write, as values: the
    `users`, `teams`, `challenges`, `flags`, `submissions` and `events` tables
    of the schema in r8/cli/sql.py, with the foreign keys that SQLite enforces
    (r8/util.py turns them on in `sqlite3_connect`) stated as a predicate. */
module Store {
  import opened Wrappers

  /** A row of `challenges`: team scoring and the activity window. */
  datatype ChallengeRow = ChallengeRow(team: bool, tStart: int, tStop: int)

  /** A row of `flags`, keyed by its token (the fid). */
  datatype FlagRow = FlagRow(cid: string, maxSubmissions: int)

  /** A row of `submissions`; its primary key is the whole pair. */
  datatype Submission = Submission(uid: string, fid: string)

  /** A row of `events`; `time` is the insertion time. */
  datatype Event = Event(time: int, ip: string, kind: string, data: Option<string>,
                         cid: Option<string>, uid: Option<string>)

  datatype Db = Db(
    users: set<string>,
    teams: map<string, string>,           // uid -> tid
    challenges: map<string, ChallengeRow>,
    flags: map<string, FlagRow>,
    submissions: set<Submission>,
    events: seq<Event>)

  /** The exceptions the flag operations raise. */
  datatype Error =
    | UnknownUser          // ValueError("Unknown user.")
    | UnknownFlag          // ValueError("Unknown Flag ...")
    | ChallengeInactive    // ValueError("Challenge is not active.")
    | AlreadySolved        // ValueError("Challenge already solved.")
    | FlagExhausted        // ValueError("Flag already used too often.")
    | IntegrityError       // sqlite3.IntegrityError: a foreign key is violated
    | MissingChallengeRow  // the challenge has no row, so its window cannot be read

  /** A result together with the state after the operation. */
  datatype Outcome<+T> = Outcome(result: Result<T, Error>, db: Db)

  const FlagErrUnknown: string := "flag-err-unknown"
  const FlagErrInactive: string := "flag-err-inactive"
  const FlagErrSolved: string := "flag-err-solved"
  const FlagErrUsed: string := "flag-err-used"
  const FlagSubmit: string := "flag-submit"
  const FlagInactive: string := "flag-inactive"
  const FlagCreate: string := "flag-create"

  /** Helper for `r8.log`: append one event. */
  function Log(db: Db, e: Event): Db {
    db.(events := db.events + [e])
  }

  /** The foreign keys of the schema. */
  predicate WellFormed(db: Db) {
    && (forall s | s in db.submissions :: s.uid in db.users && s.fid in db.flags)
    && (forall f | f in db.flags :: db.flags[f].cid in db.challenges)
    && (forall u | u in db.teams :: u in db.users)
  }

  /** Whether `now` lies in the window, bounds included (SQL `BETWEEN`). */
  predicate Active(c: ChallengeRow, now: int) {
    c.tStart <= now <= c.tStop
  }

  /** `v` is in the same team as `u`; a user without a team has no teammates. */
  predicate Teammates(db: Db, u: string, v: string) {
    u in db.teams && v in db.teams && db.teams[u] == db.teams[v]
  }

  /** A submission that counts as `user` having solved `cid`: it is for a flag
      of that challenge and was made by the user, or, when the challenge is
      team-scored, by anyone in the user's team. */
  predicate CountsToward(db: Db, user: string, cid: string, s: Submission) {
    && s.fid in db.flags
    && db.flags[s.fid].cid == cid
    && cid in db.challenges
    && (s.uid == user || (db.challenges[cid].team && Teammates(db, user, s.uid)))
  }

  /** Helper: the `COUNT(*)` that `has_solved` and the duplicate check of
      `submit_flag` compute. `SolveCountPositive` relates it to the
      submissions that count, and `HasSolved` is its truth value. */
  function SolveCount(db: Db, user: string, cid: string): nat {
    |set s | s in db.submissions && CountsToward(db, user, cid, s)|
  }

  /** The count is positive exactly when some submission counts. */
  lemma SolveCountPositive(db: Db, user: string, cid: string)
    ensures SolveCount(db, user, cid) > 0 <==> exists s :: s in db.submissions && CountsToward(db, user, cid, s)
  {
    var matching := set s | s in db.submissions && CountsToward(db, user, cid, s);
    if exists s :: s in db.submissions && CountsToward(db, user, cid, s) {
      var s :| s in db.submissions && CountsToward(db, user, cid, s);
      assert s in matching;
    }
  }

  /** `has_solved`: the count above, read as a truth value. */
  function HasSolved(db: Db, user: string, cid: string): (r: bool)
    ensures r <==> exists s :: s in db.submissions && CountsToward(db, user, cid, s)
  {
    SolveCountPositive(db, user, cid);
    SolveCount(db, user, cid) > 0
  }

  /** Number of submissions recorded for a flag. */
  function SubmissionCount(subs: set<Submission>, fid: string): nat {
    |set s | s in subs && s.fid == fid|
  }

  /** Adding a new submission raises the count of its own flag by one and no other. */
  lemma SubmissionCountInsert(subs: set<Submission>, n: Submission, fid: string)
    requires n !in subs
    ensures SubmissionCount(subs + {n}, fid) == SubmissionCount(subs, fid) + (if n.fid == fid then 1 else 0)
  {
    var before := set s | s in subs && s.fid == fid;
    var after := set s | s in subs + {n} && s.fid == fid;
    if n.fid == fid {
      assert after == before + {n};
    } else {
      assert after == before;
    }
  }

  /** No flag has more submissions than its cap. */
  predicate WithinCaps(db: Db) {
    forall f | f in db.flags :: SubmissionCount(db.submissions, f) <= db.flags[f].maxSubmissions
  }

  /** The two users form one redemption unit for `cid`. */
  predicate SameUnit(db: Db, cid: string, u: string, v: string) {
    u == v || (cid in db.challenges && db.challenges[cid].team && Teammates(db, u, v))
  }

  /** Each user, or each team on a team-scored challenge, holds at most one
      submission among the flags of any one challenge. */
  predicate OneSolvePerUnit(db: Db) {
    forall a, b | a in db.submissions && b in db.submissions && a != b
                  && a.fid in db.flags && b.fid in db.flags
                  && db.flags[a.fid].cid == db.flags[b.fid].cid
      :: !SameUnit(db, db.flags[a.fid].cid, a.uid, b.uid)
  }
}

=== FILE: submit_properties.dfy ===
/** What `submit_flag` (r8/util.py) promises: the outcome of each check in
    its order, the fairness invariants it keeps, and what `force` does and
    does not bypass. */
module SubmitProperties {
  import opened Wrappers
  import opened Store
  import opened FlagText
  import opened Flags

  /** The submitted text names a flag of a challenge with a non-empty cid. */
  predicate Found(db: Db, raw: string) {
    Resolve(db, raw).Some? && Resolve(db, raw).value.cid != ""
  }

  /** The event appended by the call. */
  function LastEvent(db: Db): Event
    requires |db.events| > 0
  {
    db.events[|db.events| - 1]
  }

  /** An unknown user is rejected first, with an anonymous `flag-err-unknown`. */
  lemma SubmitUnknownUser(db: Db, raw: string, user: string, ip: string, now: int, force: bool)
    ensures var r := SubmitFlag(db, raw, user, ip, now, force);
            (r.result == Failure(UnknownUser) <==> user !in db.users)
            && (user !in db.users ==>
                  r.db == Log(db, Event(now, ip, FlagErrUnknown, Some(raw), None, None)))
  {
  }

  /** A known user whose text names no redeemable flag, raw or corrected, is
      rejected with a `flag-err-unknown` event carrying the user. */
  lemma SubmitUnknownFlag(db: Db, raw: string, user: string, ip: string, now: int, force: bool)
    ensures var r := SubmitFlag(db, raw, user, ip, now, force);
            && (r.result == Failure(UnknownFlag) <==> user in db.users && !Found(db, raw))
            && ((user in db.users && !Redeemable(db, raw) && !Redeemable(db, CorrectFlag(raw)))
                  ==> r.result == Failure(UnknownFlag))
            && (r.result == Failure(UnknownFlag) ==>
                  && r.db.submissions == db.submissions
                  && LastEvent(r.db).kind == FlagErrUnknown
                  && LastEvent(r.db).data ==
                       Some(if Resolve(db, raw).Some? then Resolve(db, raw).value.fid else raw)
                  && LastEvent(r.db).uid == Some(user)
                  && LastEvent(r.db).cid == None)
  {
  }

  /** Outside the window a non-forced submission is rejected; `force` never
      yields this error. */
  lemma SubmitInactive(db: Db, raw: string, user: string, ip: string, now: int, force: bool)
    ensures var r := SubmitFlag(db, raw, user, ip, now, force);
            && (r.result == Failure(ChallengeInactive) <==>
                  user in db.users && Found(db, raw) && !force
                  && !Active(db.challenges[Resolve(db, raw).value.cid], now))
            && (r.result == Failure(ChallengeInactive) ==>
                  && r.db.submissions == db.submissions
                  && LastEvent(r.db) == Event(now, ip, FlagErrInactive, Some(Resolve(db, raw).value.fid),
                                              Some(Resolve(db, raw).value.cid), Some(user)))
  {
  }

  /** A challenge the user, or for a team challenge the user's team, already
      solved is rejected, forced or not. */
  lemma SubmitAlreadySolved(db: Db, raw: string, user: string, ip: string, now: int, force: bool)
    ensures var r := SubmitFlag(db, raw, user, ip, now, force);
            && (r.result == Failure(AlreadySolved) <==>
                  && user in db.users && Found(db, raw)
                  && (force || Active(db.challenges[Resolve(db, raw).value.cid], now))
                  && HasSolved(db, user, Resolve(db, raw).value.cid))
            && (r.result == Failure(AlreadySolved) ==>
                  && r.db.submissions == db.submissions
                  && LastEvent(r.db) == Event(now, ip, FlagErrSolved, Some(Resolve(db, raw).value.fid),
                                              Some(Resolve(db, raw).value.cid), Some(user)))
  {
  }

  /** A flag whose submissions reached its cap is rejected unless forced. */
  lemma SubmitExhausted(db: Db, raw: string, user: string, ip: string, now: int, force: bool)
    ensures var r := SubmitFlag(db, raw, user, ip, now, force);
            && (r.result == Failure(FlagExhausted) <==>
                  && user in db.users && Found(db, raw) && !force
                  && Active(db.challenges[Resolve(db, raw).value.cid], now)
                  && !HasSolved(db, user, Resolve(db, raw).value.cid)
                  && var fid := Resolve(db, raw).value.fid;
                     SubmissionCount(db.submissions, fid) >= db.flags[fid].maxSubmissions)
            && (r.result == Failure(FlagExhausted) ==>
                  && r.db.submissions == db.submissions
                  && LastEvent(r.db) == Event(now, ip, FlagErrUsed, Some(Resolve(db, raw).value.fid),
                                              Some(Resolve(db, raw).value.cid), Some(user)))
  {
  }

  /** A submission succeeds exactly when every check passes; it then adds the
      one pair, logs `flag-submit` and returns the owning cid. */
  lemma SubmitSucceeds(db: Db, raw: string, user: string, ip: string, now: int, force: bool)
    ensures var r := SubmitFlag(db, raw, user, ip, now, force);
            && (r.result.Success? <==>
                  && user in db.users && Found(db, raw)
                  && var found := Resolve(db, raw).value;
                     && (force || Active(db.challenges[found.cid], now))
                     && !HasSolved(db, user, found.cid)
                     && (force || SubmissionCount(db.submissions, found.fid) < db.flags[found.fid].maxSubmissions))
            && (r.result.Success? ==>
                  var found := Resolve(db, raw).value;
                  && r.result.value == found.cid
                  && r.db == db.(submissions := db.submissions + {Submission(user, found.fid)},
                                 events := db.events + [Event(now, ip, FlagSubmit, Some(found.fid),
                                                              Some(found.cid), Some(user))]))
  {
  }

  /** Forcing changes nothing but the window and cap checks: wherever the
      unforced call stops at another check, the forced one stops there too. */
  lemma ForceBypassesOnlyWindowAndCap(db: Db, raw: string, user: string, ip: string, now: int)
    ensures var plain := SubmitFlag(db, raw, user, ip, now, false);
            var forced := SubmitFlag(db, raw, user, ip, now, true);
            && forced.result != Failure(ChallengeInactive)
            && forced.result != Failure(FlagExhausted)
            && (plain.result.Success? ==> forced == plain)
            && ((plain.result.Failure? && plain.result.error !in {ChallengeInactive, FlagExhausted})
                  ==> forced == plain)
  {
  }

  /** The recorded submission never duplicates a primary key, and every
      submission still references an existing user and flag. */
  lemma SubmitPreservesWellFormed(db: Db, raw: string, user: string, ip: string, now: int, force: bool)
    requires WellFormed(db)
    ensures WellFormed(SubmitFlag(db, raw, user, ip, now, force).db)
  {
  }

  /** Without `force`, no flag is ever pushed past its cap. */
  lemma SubmitKeepsCaps(db: Db, raw: string, user: string, ip: string, now: int)
    requires WithinCaps(db)
    ensures WithinCaps(SubmitFlag(db, raw, user, ip, now, false).db)
  {
    var r := SubmitFlag(db, raw, user, ip, now, false);
    if r.result.Success? {
      var n := Submission(user, Resolve(db, raw).value.fid);
      forall f | f in r.db.flags
        ensures SubmissionCount(r.db.submissions, f) <= r.db.flags[f].maxSubmissions
      {
        SubmissionCountInsert(db.submissions, n, f);
      }
    }
  }

  /** Forced or not, a user (or a team, on a team challenge) never ends up
      with two submissions for one challenge. */
  lemma SubmitKeepsOneSolvePerUnit(db: Db, raw: string, user: string, ip: string, now: int, force: bool)
    requires OneSolvePerUnit(db)
    ensures OneSolvePerUnit(SubmitFlag(db, raw, user, ip, now, force).db)
  {
    var r := SubmitFlag(db, raw, user, ip, now, force);
    if r.result.Success? {
      var found := Resolve(db, raw).value;
      var n := Submission(user, found.fid);
      var cid := found.cid;
      assert !HasSolved(db, user, cid);
      forall a, b | a in r.db.submissions && b in r.db.submissions && a != b
                    && a.fid in r.db.flags && b.fid in r.db.flags
                    && r.db.flags[a.fid].cid == r.db.flags[b.fid].cid
        ensures !SameUnit(r.db, r.db.flags[a.fid].cid, a.uid, b.uid)
      {
        if a == n {
          assert b in db.submissions;
        } else if b == n {
          assert a in db.submissions;
        }
      }
    }
  }

  /** After a successful submission, everyone in the submitter's unit counts
      as having solved the challenge, so no one of them can redeem any flag
      of it again. */
  lemma {:induction false} SolveCoversUnit(db: Db, raw: string, user: string, ip: string, now: int, force: bool,
                        mate: string, raw2: string, ip2: string, now2: int, force2: bool)
    requires SubmitFlag(db, raw, user, ip, now, force).result.Success?
    requires SameUnit(db, SubmitFlag(db, raw, user, ip, now, force).result.value, mate, user)
    ensures var r := SubmitFlag(db, raw, user, ip, now, force);
            && HasSolved(r.db, mate, r.result.value)
            && (Found(r.db, raw2) && Resolve(r.db, raw2).value.cid == r.result.value ==>
                  !SubmitFlag(r.db, raw2, mate, ip2, now2, force2).result.Success?)
  {
    var r := SubmitFlag(db, raw, user, ip, now, force);
    var found := Resolve(db, raw).value;
    var n := Submission(user, found.fid);
    assert n in r.db.submissions;
    assert CountsToward(r.db, mate, found.cid, n);
    SubmitSucceeds(r.db, raw2, mate, ip2, now2, force2);
  }

  /** One call of `submit_flag`, as a caller makes it. */
  datatype Attempt = Attempt(raw: string, user: string, ip: string, now: int, force: bool)

  /** A run of submissions, each against the state the previous one left. */
  function SubmitAll(db: Db, attempts: seq<Attempt>): (r: Db)
    ensures |r.events| == |db.events| + |attempts| && r.events[..|db.events|] == db.events
    ensures db.submissions <= r.submissions
    ensures r.flags == db.flags && r.challenges == db.challenges
    ensures r.users == db.users && r.teams == db.teams
    decreases |attempts|
  {
    if |attempts| == 0 then db
    else
      var a := attempts[0];
      SubmitAll(SubmitFlag(db, a.raw, a.user, a.ip, a.now, a.force).db, attempts[1..])
  }

  /** The fairness invariants hold over any run: foreign keys and one solve
      per user or team always; caps whenever no attempt is forced. */
  lemma {:induction false} SubmitAllKeepsInvariants(db: Db, attempts: seq<Attempt>)
    requires WellFormed(db) && OneSolvePerUnit(db)
    ensures WellFormed(SubmitAll(db, attempts)) && OneSolvePerUnit(SubmitAll(db, attempts))
    ensures WithinCaps(db) && (forall i | 0 <= i < |attempts| :: !attempts[i].force)
            ==> WithinCaps(SubmitAll(db, attempts))
    decreases |attempts|
  {
    if |attempts| > 0 {
      var a := attempts[0];
      var next := SubmitFlag(db, a.raw, a.user, a.ip, a.now, a.force).db;
      SubmitPreservesWellFormed(db, a.raw, a.user, a.ip, a.now, a.force);
      SubmitKeepsOneSolvePerUnit(db, a.raw, a.user, a.ip, a.now, a.force);
      if WithinCaps(db) && (forall i | 0 <= i < |attempts| :: !attempts[i].force) {
        SubmitKeepsCaps(db, a.raw, a.user, a.ip, a.now);
        assert forall i | 0 <= i < |attempts[1..]| :: !attempts[1..][i].force by {
          forall i | 0 <= i < |attempts[1..]| ensures !attempts[1..][i].force {
            assert attempts[1..][i] == attempts[i + 1];
          }
        }
      }
      SubmitAllKeepsInvariants(next, attempts[1..]);
    }
  }
}

=== FILE: text.dfy ===
/** Character-level string helpers shared by the cid grammar, the address
    formatter and the URL builder: first/last occurrence search, stripping of
    a leading character, and decimal rendering of integers with its parser. */
module Text {
  import opened Wrappers

  /** Position of the first `c` in `s`, as Python's `str.split(c, 1)` finds it. */
  function IndexOf(s: string, c: char): (r: Option<nat>)
    ensures r.Some? ==> r.value < |s| && s[r.value] == c && c !in s[..r.value]
    ensures r.None? <==> c !in s
  {
    if |s| == 0 then None
    else if s[0] == c then Some(0)
    else
      match IndexOf(s[1..], c)
      case None => None
      case Some(i) =>
        assert s[..i + 1] == [s[0]] + s[1..][..i];
        Some(i + 1)
  }

  /** Position of the last `c` in `s`, as Python's `str.rsplit(c, 1)` finds it. */
  function LastIndexOf(s: string, c: char): (r: Option<nat>)
    ensures r.Some? ==> r.value < |s| && s[r.value] == c && c !in s[r.value + 1..]
    ensures r.None? <==> c !in s
  {
    if |s| == 0 then None
    else if s[|s| - 1] == c then Some(|s| - 1)
    else
      match LastIndexOf(s[..|s| - 1], c)
      case None =>
        assert s == s[..|s| - 1] + [s[|s| - 1]];
        None
      case Some(i) =>
        assert s[i + 1..] == s[..|s| - 1][i + 1..] + [s[|s| - 1]];
        Some(i)
  }

  /** Python's `s.lstrip(c)` for a single character: drops every leading `c`. */
  function LStrip(s: string, c: char): (r: string)
    ensures |r| <= |s| && s[|s| - |r|..] == r
    ensures forall k :: 0 <= k < |s| - |r| ==> s[k] == c
    ensures |r| == 0 || r[0] != c
    decreases |s|
  {
    if |s| > 0 && s[0] == c then LStrip(s[1..], c) else s
  }

  predicate IsDigit(c: char) {
    '0' <= c <= '9'
  }

  function DigitChar(d: nat): (c: char)
    requires d < 10
    ensures IsDigit(c) && c as int - '0' as int == d
  {
    ('0' as int + d) as char
  }

  /** Decimal digits of a natural number, most significant first, no leading zero. */
  function NatDigits(n: nat): (r: string)
    ensures |r| > 0 && forall k :: 0 <= k < |r| ==> IsDigit(r[k])
    ensures n > 0 ==> r[0] != '0'
    decreases n
  {
    if n < 10 then [DigitChar(n)] else NatDigits(n / 10) + [DigitChar(n % 10)]
  }

  /** Python's `str(n)` for an `int`: a `-` sign, then the digits of the magnitude. */
  function IntToDecimal(n: int): (r: string)
    ensures |r| > 0
    ensures (r[0] == '-') <==> n < 0
    ensures forall k :: 0 < k < |r| ==> IsDigit(r[k])
    ensures n > 0 ==> r[0] != '0'
    ensures n < 0 ==> |r| > 1 && r[1] != '0'
  {
    if n < 0 then "-" + NatDigits(-n) else NatDigits(n)
  }

  /** Reads a string of decimal digits back to its value. */
  function ParseNat(s: string): nat
    requires forall k :: 0 <= k < |s| ==> IsDigit(s[k])
    decreases |s|
  {
    if |s| == 0 then 0
    else
      assert IsDigit(s[|s| - 1]);
      ParseNat(s[..|s| - 1]) * 10 + (s[|s| - 1] as int - '0' as int)
  }

  /** Reads an optionally signed decimal integer, the inverse of `IntToDecimal`. */
  function ParseInt(s: string): int
    requires |s| > 0
    requires forall k :: 0 < k < |s| ==> IsDigit(s[k])
    requires s[0] == '-' || IsDigit(s[0])
  {
    if s[0] == '-' then -(ParseNat(s[1..]) as int) else ParseNat(s)
  }

  lemma {:induction false} NatDigitsRoundTrip(n: nat)
    ensures ParseNat(NatDigits(n)) == n
    decreases n
  {
    if n >= 10 {
      var s := NatDigits(n);
      NatDigitsRoundTrip(n / 10);
      assert s[..|s| - 1] == NatDigits(n / 10);
    }
  }

  /** Rendering an integer and parsing it back gives the integer. */
  lemma DecimalRoundTrip(n: int)
    ensures ParseInt(IntToDecimal(n)) == n
  {
    if n < 0 {
      NatDigitsRoundTrip(-n);
      assert IntToDecimal(n)[1..] == NatDigits(-n);
    } else {
      NatDigitsRoundTrip(n);
    }
  }
}

=== FILE: util_text.dfy ===
/** Small text helpers of r8/util.py: `format_address`, `console_escape`
    and `url_for`. The signature `url_for` adds comes from a signer outside
    the model and is passed in as `token`; the configured origin as `origin`. */
module UtilText {
  import opened Wrappers
  import opened Text

  const AnyHost: string := "0.0.0.0"

  /** `format_address`: `host:port`, an empty host shown as `0.0.0.0`. */
  function FormatAddress(host: string, port: int): (r: string)
    ensures |r| > |IntToDecimal(port)|
    ensures r[|r| - |IntToDecimal(port)|..] == IntToDecimal(port)
  {
    (if host == "" then AnyHost else host) + ":" + IntToDecimal(port)
  }

  /** Splitting a formatted address at its last `:` gives back the host (or
      `0.0.0.0` for an empty one) and the port, even when the host itself
      holds colons, as an IPv6 address does. */
  lemma {:induction false} FormatAddressRoundTrip(host: string, port: int)
    ensures var r := FormatAddress(host, port);
            var shown := if host == "" then AnyHost else host;
            && LastIndexOf(r, ':') == Some(|shown|)
            && r[..|shown|] == shown
            && r[|shown| + 1..] == IntToDecimal(port)
            && ParseInt(r[|shown| + 1..]) == port
  {
    var shown := if host == "" then AnyHost else host;
    var r := FormatAddress(host, port);
    assert r[|shown| + 1..] == IntToDecimal(port);
    NoColonInDecimal(port);
    LastOccurrence(r, ':', |shown|);
    DecimalRoundTrip(port);
  }

  lemma NoColonInDecimal(n: int)
    ensures ':' !in IntToDecimal(n)
  {
    var d := IntToDecimal(n);
    forall k | 0 <= k < |d| ensures d[k] != ':' {
      if k > 0 {
        assert IsDigit(d[k]);
      }
    }
  }

  /** The last occurrence is the one no later occurrence follows. */
  lemma LastOccurrence(s: string, c: char, i: nat)
    requires i < |s| && s[i] == c && c !in s[i + 1..]
    ensures LastIndexOf(s, c) == Some(i)
  {
  }

  /** C0 control characters and DEL. */
  predicate IsControl(c: char) {
    c as int < 32 || c as int == 127
  }

  /** The Control Pictures block characters that stand for them. */
  predicate IsControlPicture(c: char) {
    (0x2400 <= c as int < 0x2420) || c as int == 0x2421
  }

  function EscapeChar(c: char): char {
    if c as int < 32 then (c as int + 0x2400) as char
    else if c as int == 127 then '␡'
    else c
  }

  function UnescapeChar(c: char): char {
    if 0x2400 <= c as int < 0x2420 then (c as int - 0x2400) as char
    else if c as int == 0x2421 then 127 as char
    else c
  }

  /** `console_escape`: each control character replaced by its picture, so
      the output cannot steer a terminal; everything else is kept. */
  function ConsoleEscape(text: string): (r: string)
    ensures |r| == |text|
    ensures forall k | 0 <= k < |r| :: !IsControl(r[k])
    ensures forall k | 0 <= k < |text| :: !IsControl(text[k]) ==> r[k] == text[k]
    ensures forall k | 0 <= k < |text| :: IsControl(text[k]) ==> IsControlPicture(r[k])
  {
    seq(|text|, k requires 0 <= k < |text| => EscapeChar(text[k]))
  }

  /** Reverses `ConsoleEscape` on text that held no control pictures of its own. */
  function ConsoleUnescape(text: string): string {
    seq(|text|, k requires 0 <= k < |text| => UnescapeChar(text[k]))
  }

  lemma ConsoleEscapeRoundTrip(text: string)
    requires forall k | 0 <= k < |text| :: !IsControlPicture(text[k])
    ensures ConsoleUnescape(ConsoleEscape(text)) == text
  {
  }

  /** `url_for`: with a (non-empty) user, append the signed token as a query
      parameter, joining with `&` when the path already has a query; when
      absolute, drop the path's leading slashes and put `origin/` in front. */
  function UrlFor(path: string, absolute: bool, user: Option<string>, token: string, origin: string): (r: string)
    ensures !absolute && (user.None? || user == Some("")) ==> r == path
    ensures absolute ==> |r| > |origin| && r[..|origin| + 1] == origin + "/"
                         && (|r| == |origin| + 1 || r[|origin| + 1] != '/')
    ensures absolute ==> r == origin + "/" + LStrip(UrlFor(path, false, user, token, origin), '/')
    decreases if absolute then 1 else 0
  {
    var signed :=
      if user.Some? && user.value != "" then path + (if '?' in path then "&" else "?") + "token=" + token
      else path;
    if absolute then origin + "/" + LStrip(signed, '/') else signed
  }

  /** A relative URL for a user is the path, one separator, and the token
      parameter at the end; the separator opens a query only if there was none. */
  lemma UrlForAppendsToken(path: string, user: string, token: string, origin: string)
    requires user != ""
    ensures var r := UrlFor(path, false, Some(user), token, origin);
            && r[..|path|] == path
            && r[|path| + 1..] == "token=" + token
            && (r[|path|] == '&' <==> '?' in path)
            && (r[|path|] == '?' <==> '?' !in path)
  {
  }
}

=== FILE: wrappers.dfy ===
/** Failure-carrying datatypes used across the model: `Option` for values
    that may be missing (a SQL row that was not found, a `None` argument) and
    `Result` for operations that raise in r8. */
module Wrappers {

  datatype Option<+T> = None | Some(value: T)

  /** `Failure` stands for an exception escaping the modelled function. */
  datatype Result<+T, +E> = Success(value: T) | Failure(error: E)
}
